=== FILE: README.md ===
# Boat fuel tracker: a Dafny model of its core

The boat fuel tracker keeps a log of refuelling records ("fuel-ups") for the
users of a boat. This project models seven parts of it and proves properties
about each:

- The two persistent entities, `User` and `FuelUp` (`entity.dfy`). Both are
  Dafny classes whose setters update fields in place. A `FuelUp` keeps the
  derived invariant `totalCost == gallons * pricePerGallon` (`Valid()`). Every
  constructor and every setter keeps that invariant, except `setTotalCost`.
  The invariant holds only while both operands are present.
- The stateful user session bean (`session.dfy`). It is a class whose methods
  take the clock reading `now` as a parameter. Each method is tied to a
  pure transition function `Step` over a `SessionState` value, and lemmas
  about `Step` and `Run` state the state machine's properties.
- The JNDI lookup helper (`resolver.dfy`). This is a generic ordered fallback
  resolver, `Resolve`. It works over a list of candidates and an abstract
  lookup function, where each lookup yields one of:
  - a handle;
  - a naming failure;
  - any other failure.

  It returns the outcome together with the trace of attempted candidates.
  `getInitialContext` and `lookupDataSource` are instances of it.
  `lookupEJB` and `lookupJBossResource` look up a prefixed name.
- The FUEL_UPS table as the service sees it (`records.dfy`): the stored rows,
  the owner filter, the newest-first ordering, find, and remove.
- The USERS table (`users.dfy`), with the constraints the `User` entity
  declares: a generated id, a required and unique email, a creation
  timestamp, and deletion cascading to the user's fuel-ups.
- The statistics query (`statistics.dfy`): COUNT, SUM(GALLONS),
  SUM(TOTAL_COST) and AVG(PRICE_PER_GALLON), with SQL's NULL semantics.
- The fuel-up service bean (`service.dfy`). It is a class over an abstract
  store, a sequence of rows plus the next generated id. `createFuelUp` and
  `deleteFuelUp` change the store in place. `getFuelUpsByUser` and
  `getStatistics` answer from the pure functions above.

These are modelled as follows:

- `BigDecimal` is an exact `real`.
- A DATE column is an `int` day number.
- A timestamp is an `int` millisecond count.
- A Java reference that may be null is an `Option` (or `User?`).
- Whether the store, the connection or the naming service fails on a
  particular call is a parameter of that call: `fault`, or the lookup
  functions.

The all-zero fallback at `FuelUpServiceBean.java:128` suggests zeros for a
user with no records. But `getStatistics` runs an aggregate query without
GROUP BY, and such a query always yields exactly one row. Over no rows that
row has COUNT 0 and NULL sums and average. So `getStatistics` returns count
0 with absent (NULL) totals, and the fallback is never reached.
`Statistics.NoRowsGiveNulls` and `Service.AggregateQuery` state this.

## Model

| member | source | states |
|---|---|---|
| Entity.User.constructor | src/main/java/com/boatfuel/entity/User.java:53-54 | every field of a new user, fuelUps included, is absent |
| Entity.User.SetUserId | src/main/java/com/boatfuel/entity/User.java:61-63 | userId becomes the argument (what getUserId then returns) and no other field changes |
| Entity.User.SetEmail | src/main/java/com/boatfuel/entity/User.java:69-71 | email becomes the argument and no other field changes |
| Entity.User.SetDisplayName | src/main/java/com/boatfuel/entity/User.java:77-79 | displayName becomes the argument and no other field changes |
| Entity.User.SetPasswordHash | src/main/java/com/boatfuel/entity/User.java:85-87 | passwordHash becomes the argument and no other field changes |
| Entity.User.SetIsAdmin | src/main/java/com/boatfuel/entity/User.java:93-95 | isAdmin becomes the argument and no other field changes |
| Entity.User.SetCreatedAt | src/main/java/com/boatfuel/entity/User.java:101-103 | createdAt becomes the argument and no other field changes |
| Entity.User.SetLastLogin | src/main/java/com/boatfuel/entity/User.java:109-111 | lastLogin becomes the argument and no other field changes |
| Entity.User.SetFuelUps | src/main/java/com/boatfuel/entity/User.java:117-119 | the fuelUps collection becomes the argument; the column fields are unchanged |
| Entity.Recalculated | src/main/java/com/boatfuel/entity/FuelUp.java:156-160 | recalculation establishes the cost invariant, changes at most totalCost, and changes nothing when the invariant already holds |
| Entity.FuelUp.Empty | src/main/java/com/boatfuel/entity/FuelUp.java:61-62 | every field, totalCost included, is absent, so the invariant holds vacuously |
| Entity.FuelUp.constructor | src/main/java/com/boatfuel/entity/FuelUp.java:65-71 | stores user, date, gallons and price, sets totalCost to gallons times price and leaves the other fields absent; the invariant holds |
| Entity.FuelUp.SetId | src/main/java/com/boatfuel/entity/FuelUp.java:78-80 | only id changes; the invariant holds afterwards exactly when it held before |
| Entity.FuelUp.SetUser | src/main/java/com/boatfuel/entity/FuelUp.java:86-88 | only user changes; the invariant is kept as it was |
| Entity.FuelUp.SetDate | src/main/java/com/boatfuel/entity/FuelUp.java:94-96 | only date changes; the invariant is kept as it was |
| Entity.FuelUp.SetGallons | src/main/java/com/boatfuel/entity/FuelUp.java:102-105 | gallons becomes the argument; with a price present totalCost becomes gallons times price, otherwise totalCost is unchanged; the invariant holds afterwards whatever the state before |
| Entity.FuelUp.SetPricePerGallon | src/main/java/com/boatfuel/entity/FuelUp.java:111-114 | the price becomes the argument; with gallons present totalCost becomes gallons times price, otherwise totalCost is unchanged; the invariant holds afterwards |
| Entity.FuelUp.SetTotalCost | src/main/java/com/boatfuel/entity/FuelUp.java:120-122 | stores any value; the invariant holds afterwards if and only if an operand is absent or the value is the product |
| Entity.FuelUp.SetEngineHours | src/main/java/com/boatfuel/entity/FuelUp.java:128-130 | only engineHours changes; the invariant is kept as it was |
| Entity.FuelUp.SetLocation | src/main/java/com/boatfuel/entity/FuelUp.java:136-138 | only location changes; the invariant is kept as it was |
| Entity.FuelUp.SetNotes | src/main/java/com/boatfuel/entity/FuelUp.java:144-146 | only notes changes; the invariant is kept as it was |
| Entity.FuelUp.SetCreatedAt | src/main/java/com/boatfuel/entity/FuelUp.java:152-154 | only createdAt changes; the invariant is kept as it was |
| Entity.FuelUp.CalculateTotalCost | src/main/java/com/boatfuel/entity/FuelUp.java:156-160 | the fields become their recalculation, so the invariant holds afterwards |
| Session.UserSession.constructor | src/main/java/com/boatfuel/ejb/UserSessionBean.java:31-35 | ejbCreate stores the session id and the clock reading and leaves no user, so nobody is logged in |
| Session.UserSession.SetCurrentUser | src/main/java/com/boatfuel/ejb/UserSessionBean.java:41-45 | a null user fails before any field changes; otherwise the user and the access time are set and the session is logged in |
| Session.UserSession.GetCurrentUser | src/main/java/com/boatfuel/ejb/UserSessionBean.java:47-50 | returns the current user (absent when logged out) and sets the access time to now |
| Session.UserSession.IsLoggedIn | src/main/java/com/boatfuel/ejb/UserSessionBean.java:52-54 | true if and only if a user is present; no state changes |
| Session.UserSession.Logout | src/main/java/com/boatfuel/ejb/UserSessionBean.java:56-59 | clears the user and keeps the access time |
| Session.UserSession.GetLastAccessTime | src/main/java/com/boatfuel/ejb/UserSessionBean.java:61-63 | returns the last access time and changes nothing |
| Session.UserSession.AfterBegin | src/main/java/com/boatfuel/ejb/UserSessionBean.java:66-68 | the transaction-begin notification changes no state |
| Session.UserSession.BeforeCompletion | src/main/java/com/boatfuel/ejb/UserSessionBean.java:70-72 | the before-completion notification changes no state |
| Session.UserSession.AfterCompletion | src/main/java/com/boatfuel/ejb/UserSessionBean.java:74-76 | the after-completion notification changes no state, committed or not |
| Session.SignInThenOut | src/main/java/com/boatfuel/ejb/UserSessionBean.java:41-59 | signing in gives a logged-in session with that user and time; signing out then gives an anonymous session with the same time and id |
| Session.QueriesAndHooksChangeNothing | src/main/java/com/boatfuel/ejb/UserSessionBean.java:41-76 | the queries, the hooks and a refused null user leave the state as it was; getCurrentUser keeps the user |
| Session.AccessTimeNeverDecreases | src/main/java/com/boatfuel/ejb/UserSessionBean.java:31-50 | with a non-decreasing clock, after any sequence of calls the access time lies between its initial value and the latest reading |
| Resolver.Resolve | src/main/java/com/boatfuel/util/JNDILookupHelper.java:42-51 | attempts a prefix of the candidates, in order and each at most once; only naming failures move on; the last attempted candidate's outcome is final; a naming failure as the result means every candidate was tried |
| Resolver.FirstSettledWins | src/main/java/com/boatfuel/util/JNDILookupHelper.java:42-51 | when candidate k is the first without a naming failure, the result is its outcome and nothing after it is attempted |
| Resolver.ResolveSucceedsIff | src/main/java/com/boatfuel/util/JNDILookupHelper.java:42-51 | resolution succeeds if and only if some candidate is bound and every earlier one failed with a naming failure |
| Resolver.GetInitialContext | src/main/java/com/boatfuel/util/JNDILookupHelper.java:64-80 | the default context is created only when creating the vendor context fails with a naming failure |
| Resolver.LookupDataSource | src/main/java/com/boatfuel/util/JNDILookupHelper.java:38-57 | tries "jdbc/was/BoatFuelDS" and then, only after a naming failure, "java:comp/env/jdbc/BoatFuelTrackerDS"; the first success is returned; any other failure skips the fallback; every failure becomes a naming failure starting "Cannot find datasource: "; the trace is exactly the names attempted |
| Resolver.LookupIn | src/main/java/com/boatfuel/util/JNDILookupHelper.java:86-93 | one name is looked up in a fresh context; a failure to create the context propagates with its kind (naming or other) and message, and nothing is looked up |
| Resolver.LookupEjb | src/main/java/com/boatfuel/util/JNDILookupHelper.java:86-94 | looks up "ejb/com/boatfuel/" followed by the argument in a fresh context and returns that lookup's outcome; no other name is looked up |
| Resolver.LookupJBossResource | src/main/java/com/boatfuel/util/JNDILookupHelper.java:99-107 | looks up "java:jboss/" followed by the argument in a fresh context and returns that lookup's outcome; no other name is looked up |
| Resolver.UnprefixedInverts | src/main/java/com/boatfuel/util/JNDILookupHelper.java:90 | the argument is recovered from the built name by removing the prefix |
| Records.ForUser | src/main/java/com/boatfuel/ejb/FuelUpServiceBean.java:71-73 | exactly the stored rows whose user id equals the parameter, with their multiplicities; a null id matches nothing |
| Records.ForUserAppend | src/main/java/com/boatfuel/ejb/FuelUpServiceBean.java:54-58 | storing a row adds it to its owner's rows and leaves every other user's rows unchanged |
| Records.InsertByDate | src/main/java/com/boatfuel/ejb/FuelUpServiceBean.java:72 | inserting into a newest-first list keeps it newest first and adds exactly that row |
| Records.SortNewestFirst | src/main/java/com/boatfuel/ejb/FuelUpServiceBean.java:72 | ORDER BY date DESC: a permutation of the rows with non-increasing dates |
| Records.ListForUser | src/main/java/com/boatfuel/ejb/FuelUpServiceBean.java:68-74 | the listing is newest first and a permutation of exactly the user's stored rows |
| Records.ListingExample | src/main/java/com/boatfuel/ejb/FuelUpServiceBean.java:71-72 | rows dated 1 Jan, 1 Mar and 1 Feb are listed as 1 Mar, 1 Feb, 1 Jan |
| Records.AppendFreshId | src/main/java/com/boatfuel/ejb/FuelUpServiceBean.java:57 | storing a row under an unused generated id keeps identifiers unique |
| Records.Find | src/main/java/com/boatfuel/ejb/FuelUpServiceBean.java:87 | find yields a stored row with that id, and yields one exactly when such a row exists |
| Records.Without | src/main/java/com/boatfuel/ejb/FuelUpServiceBean.java:87-90 | removal keeps every row with another id, with its multiplicity, and no row with that id |
| Records.WithoutAbsent | src/main/java/com/boatfuel/ejb/FuelUpServiceBean.java:87-90 | deleting an id that is not stored leaves the store unchanged |
| Records.WithoutIdempotent | src/main/java/com/boatfuel/ejb/FuelUpServiceBean.java:84-95 | deleting the same id twice is the same as deleting it once |
| Records.WithoutUnique | src/main/java/com/boatfuel/ejb/FuelUpServiceBean.java:87-90 | with unique ids, deleting a stored id removes exactly one row, and identifiers stay unique |
| Records.WithoutOwner | src/main/java/com/boatfuel/entity/User.java:49-50 | the rows left by the cascade: every row not owned by the user, and none that is |
| Records.CascadeRemovesOwned | src/main/java/com/boatfuel/entity/User.java:49-50 | after the cascade the user owns no rows, and every other user's rows are as before |
| Users.InsertUser | src/main/java/com/boatfuel/entity/User.java:21-43 | a null id is replaced by a generated unused one and createdAt is stamped with the insertion time; the user is stored under its id if and only if that id is new and its email is present and not used by another user; the table stays well formed |
| Users.DeleteUser | src/main/java/com/boatfuel/entity/User.java:49-50 | removing a user removes exactly that key and leaves every other user's entry as it was; by cascade exactly its fuel-ups go, and every other row is kept with its multiplicity |
| Statistics.Aggregate | src/main/java/com/boatfuel/ejb/FuelUpServiceBean.java:112-125 | count is the number of rows; the gallons sum is the sum of the rows' gallons and the average is the unweighted mean of their prices, both NULL exactly over no rows; the cost sum is the sum of the non-NULL costs, NULL exactly when no row has a cost |
| Statistics.SumOfPermutation | src/main/java/com/boatfuel/ejb/FuelUpServiceBean.java:112-113 | a SUM does not depend on the order of the rows |
| Statistics.AggregatePermutation | src/main/java/com/boatfuel/ejb/FuelUpServiceBean.java:112-113 | the statistics depend only on the multiset of rows |
| Statistics.ListedRowsAggregateAlike | src/main/java/com/boatfuel/ejb/FuelUpServiceBean.java:68-125 | aggregating the list getFuelUpsByUser returns gives the same statistics as the aggregate query |
| Statistics.NoRowsGiveNulls | src/main/java/com/boatfuel/ejb/FuelUpServiceBean.java:112-128 | over no rows the count is 0 and the sums and the average are NULL |
| Statistics.TwoRowExample | src/main/java/com/boatfuel/ejb/FuelUpServiceBean.java:112-125 | 10 gallons at 3.00 and 5 at 4.00 give count 2, 15 gallons, 50.00 spent and an average price of 3.50, not 50/15 |
| Service.AggregateQuery | src/main/java/com/boatfuel/ejb/FuelUpServiceBean.java:112-119 | the aggregate query yields exactly one row; its count is the user's number of rows; a null user id gives count 0 and NULL totals |
| Service.FuelUpService.constructor | src/main/java/com/boatfuel/ejb/FuelUpServiceBean.java:39-49 | the bean is attached to the rows already stored and to the store's next identifier, unchanged, with the identifier invariant |
| Service.FuelUpService.CreateFuelUp | src/main/java/com/boatfuel/ejb/FuelUpServiceBean.java:54-63 | fails with "Failed to create fuel-up" and stores nothing on a null fuel-up, a null user, a missing required column or a store fault; otherwise it gives the same FuelUp a fresh id and its creation time, appends its row, leaves all other rows unchanged and keeps identifiers unique |
| Service.FuelUpService.GetFuelUpsByUser | src/main/java/com/boatfuel/ejb/FuelUpServiceBean.java:68-79 | fails only on a store fault, with "Failed to retrieve fuel-ups"; otherwise it returns the user's rows newest first, a permutation of exactly those rows, and changes nothing |
| Service.FuelUpService.DeleteFuelUp | src/main/java/com/boatfuel/ejb/FuelUpServiceBean.java:84-95 | fails with "Failed to delete fuel-up" on a null id or a store fault, changing nothing; otherwise it removes the row with that id if one is stored (exactly one row) and leaves the store unchanged if none is |
| Service.FuelUpService.GetStatistics | src/main/java/com/boatfuel/ejb/FuelUpServiceBean.java:101-143 | succeeds exactly when the data source is found and the query does not fail; the result is the aggregate over the user's rows, whose count is the length of the user's listing; every failure becomes "Failed to calculate statistics" |

## Left out

- Getters are not separate members. `Fields()` (`User`, `FuelUp`) and `State()` (`UserSession`) return every field at once. Each setter's postcondition states the value the matching getter then returns.
- Entity.FuelUp.constructor: takes non-null gallons and price. The failure `gallons.multiply` raises on a null operand is not modelled.
- Stored rows are value snapshots taken at persist time. A later setter call on the persisted `FuelUp` object does not reach the store, so managed-entity aliasing and dirty checking are not captured.
- Users.InsertUser: a user whose id is already set keeps it; the failure a detached entity can cause at persist is not modelled.
- Service.FuelUpService.CreateFuelUp: an identifier already set on the `FuelUp` is overwritten by the generated one. Persisting a detached entity, and a user that is not itself stored, are not modelled as failures.
- Column lengths, precision and scale (`precision = 10, scale = 2`, `length = 500`), and database rounding of AVG, are not modelled. Values are exact.
- Service.FuelUpService.GetStatistics: the cause chained into the `RemoteException` (for instance the "Cannot find datasource: " message) is not kept in the error value.
- `System.currentTimeMillis` becomes the `now` parameter. Every storage, connection and naming-service failure is an explicit parameter.
- The EJB lifecycle is not modelled: the `EntityManager` lookup in `ejbCreate`, `ejbActivate`, `ejbPassivate`, `ejbRemove` and `setSessionContext`. Logging is not modelled either.
- Closing the JDBC result set, statement and connection in `finally` is not modelled, because it has no effect on any result.
- Concurrency and transaction isolation are not modelled. The order in which a container calls the transaction hooks is not enforced.
- src/main/java/com/boatfuel/servlet/FuelUpServlet.java is not part of this model; it is HTTP and HTML handling.
- src/main/java/com/boatfuel/util/FileSystemHelper.java is not part of this model; it is file I/O.
- The remote and home interfaces declare signatures only.

=== FILE: base.dfy ===
/** The two wrappers the rest of the model uses: Option for a Java reference
    that may be null, Result for a call that may throw. */
module Base {

  datatype Option<+T> = None | Some(value: T)

  datatype Result<+T, +E> = Ok(value: T) | Err(error: E)
}

=== FILE: entity.dfy ===
/** The two persistent entities: a User and the FuelUp records it owns.
    Every Java reference that may be null is an Option (or `User?`); BigDecimal
    is an exact `real`; a DATE column is a day number and a TIMESTAMP column a
    millisecond count, both `int`. */
module Entity {
  import opened Base

  /** The column values of a User (its mapped fuelUps collection is kept apart). */
  datatype UserFields = UserFields(
    userId: Option<string>,
    email: Option<string>,
    displayName: Option<string>,
    passwordHash: Option<string>,
    isAdmin: Option<bool>,
    createdAt: Option<int>,
    lastLogin: Option<int>)

  const NoUserFields := UserFields(None, None, None, None, None, None, None)

  class User {
    var userId: Option<string>
    var email: Option<string>
    var displayName: Option<string>
    var passwordHash: Option<string>
    var isAdmin: Option<bool>
    var createdAt: Option<int>
    var lastLogin: Option<int>
    /** The inverse side of FuelUp.user; null until set or loaded. */
    var fuelUps: Option<seq<FuelUp>>

    /** What the getters return, all at once. */
    function Fields(): UserFields
      reads this
    {
      UserFields(userId, email, displayName, passwordHash, isAdmin, createdAt, lastLogin)
    }

    /** The no-argument constructor: every field is null. */
    constructor ()
      ensures Fields() == NoUserFields && fuelUps == None
    {
      userId, email, displayName, passwordHash := None, None, None, None;
      isAdmin, createdAt, lastLogin, fuelUps := None, None, None, None;
    }

    method SetUserId(userId: Option<string>)
      modifies this
      ensures Fields() == old(Fields()).(userId := userId) && fuelUps == old(fuelUps)
    {
      this.userId := userId;
    }

    method SetEmail(email: Option<string>)
      modifies this
      ensures Fields() == old(Fields()).(email := email) && fuelUps == old(fuelUps)
    {
      this.email := email;
    }

    method SetDisplayName(displayName: Option<string>)
      modifies this
      ensures Fields() == old(Fields()).(displayName := displayName) && fuelUps == old(fuelUps)
    {
      this.displayName := displayName;
    }

    method SetPasswordHash(passwordHash: Option<string>)
      modifies this
      ensures Fields() == old(Fields()).(passwordHash := passwordHash) && fuelUps == old(fuelUps)
    {
      this.passwordHash := passwordHash;
    }

    method SetIsAdmin(isAdmin: Option<bool>)
      modifies this
      ensures Fields() == old(Fields()).(isAdmin := isAdmin) && fuelUps == old(fuelUps)
    {
      this.isAdmin := isAdmin;
    }

    method SetCreatedAt(createdAt: Option<int>)
      modifies this
      ensures Fields() == old(Fields()).(createdAt := createdAt) && fuelUps == old(fuelUps)
    {
      this.createdAt := createdAt;
    }

    method SetLastLogin(lastLogin: Option<int>)
      modifies this
      ensures Fields() == old(Fields()).(lastLogin := lastLogin) && fuelUps == old(fuelUps)
    {
      this.lastLogin := lastLogin;
    }

    method SetFuelUps(fuelUps: Option<seq<FuelUp>>)
      modifies this
      ensures Fields() == old(Fields()) && this.fuelUps == fuelUps
    {
      this.fuelUps := fuelUps;
    }
  }

  /** The field values of a FuelUp. */
  datatype FuelUpFields = FuelUpFields(
    id: Option<int>,
    user: User?,
    date: Option<int>,
    gallons: Option<real>,
    pricePerGallon: Option<real>,
    totalCost: Option<real>,
    engineHours: Option<real>,
    location: Option<string>,
    notes: Option<string>,
    createdAt: Option<int>)

  const NoFuelUpFields := FuelUpFields(None, null, None, None, None, None, None, None, None, None)

  /** BigDecimal.multiply on exact values. */
  function Multiply(a: real, b: real): real {
    a * b
  }

  /** The derived-cost invariant. It constrains totalCost only while both
      operands are present; with either of them null it says nothing. */
  predicate CostInvariant(s: FuelUpFields) {
    s.gallons.Some? && s.pricePerGallon.Some? ==>
      s.totalCost == Some(Multiply(s.gallons.value, s.pricePerGallon.value))
  }

  /** The effect of calculateTotalCost on the field values. */
  function Recalculated(s: FuelUpFields): (r: FuelUpFields)
    ensures CostInvariant(r)
    ensures r == s.(totalCost := r.totalCost)
    ensures CostInvariant(s) ==> r == s
  {
    if s.gallons.Some? && s.pricePerGallon.Some? then
      s.(totalCost := Some(Multiply(s.gallons.value, s.pricePerGallon.value)))
    else
      s
  }

  class FuelUp {
    var id: Option<int>
    var user: User?
    var date: Option<int>
    var gallons: Option<real>
    var pricePerGallon: Option<real>
    var totalCost: Option<real>
    var engineHours: Option<real>
    var location: Option<string>
    var notes: Option<string>
    var createdAt: Option<int>

    /** What the getters return, all at once. */
    function Fields(): FuelUpFields
      reads this
    {
      FuelUpFields(id, user, date, gallons, pricePerGallon, totalCost,
                   engineHours, location, notes, createdAt)
    }

    /** The class invariant, which setTotalCost alone can break. */
    predicate Valid()
      reads this
    {
      CostInvariant(Fields())
    }

    /** The no-argument constructor: every field, totalCost included, is null. */
    constructor Empty()
      ensures Fields() == NoFuelUpFields && Valid()
    {
      id, user, date, gallons, pricePerGallon := None, null, None, None, None;
      totalCost, engineHours, location, notes, createdAt := None, None, None, None, None;
    }

    /** The four-argument constructor derives totalCost from its operands. */
    constructor (user: User?, date: Option<int>, gallons: real, pricePerGallon: real)
      ensures Fields() == NoFuelUpFields.(user := user, date := date,
        gallons := Some(gallons), pricePerGallon := Some(pricePerGallon),
        totalCost := Some(Multiply(gallons, pricePerGallon)))
      ensures Valid()
    {
      this.id := None;
      this.user := user;
      this.date := date;
      this.gallons := Some(gallons);
      this.pricePerGallon := Some(pricePerGallon);
      this.totalCost := Some(Multiply(gallons, pricePerGallon));
      this.engineHours, this.location, this.notes, this.createdAt := None, None, None, None;
    }

    method SetId(id: Option<int>)
      modifies this
      ensures Fields() == old(Fields()).(id := id)
      ensures Valid() == old(Valid())
    {
      this.id := id;
    }

    method SetUser(user: User?)
      modifies this
      ensures Fields() == old(Fields()).(user := user)
      ensures Valid() == old(Valid())
    {
      this.user := user;
    }

    method SetDate(date: Option<int>)
      modifies this
      ensures Fields() == old(Fields()).(date := date)
      ensures Valid() == old(Valid())
    {
      this.date := date;
    }

    /** Stores gallons, then recalculates: afterwards the invariant holds
        whatever the state was before. */
    method SetGallons(gallons: Option<real>)
      modifies this
      ensures Fields() == Recalculated(old(Fields()).(gallons := gallons))
      ensures gallons.Some? && pricePerGallon.Some? ==>
        totalCost == Some(Multiply(gallons.value, pricePerGallon.value))
      ensures gallons.None? || pricePerGallon.None? ==> totalCost == old(totalCost)
      ensures Valid()
    {
      this.gallons := gallons;
      CalculateTotalCost();
    }

    /** Stores the price, then recalculates: afterwards the invariant holds
        whatever the state was before. */
    method SetPricePerGallon(pricePerGallon: Option<real>)
      modifies this
      ensures Fields() == Recalculated(old(Fields()).(pricePerGallon := pricePerGallon))
      ensures gallons.Some? && pricePerGallon.Some? ==>
        totalCost == Some(Multiply(gallons.value, pricePerGallon.value))
      ensures gallons.None? || pricePerGallon.None? ==> totalCost == old(totalCost)
      ensures Valid()
    {
      this.pricePerGallon := pricePerGallon;
      CalculateTotalCost();
    }

    /** Assigns totalCost freely: the invariant survives only when the value
        happens to be the product, or an operand is null. */
    method SetTotalCost(totalCost: Option<real>)
      modifies this
      ensures Fields() == old(Fields()).(totalCost := totalCost)
      ensures Valid() <==> (gallons.None? || pricePerGallon.None? ||
                            totalCost == Some(Multiply(gallons.value, pricePerGallon.value)))
    {
      this.totalCost := totalCost;
    }

    method SetEngineHours(engineHours: Option<real>)
      modifies this
      ensures Fields() == old(Fields()).(engineHours := engineHours)
      ensures Valid() == old(Valid())
    {
      this.engineHours := engineHours;
    }

    method SetLocation(location: Option<string>)
      modifies this
      ensures Fields() == old(Fields()).(location := location)
      ensures Valid() == old(Valid())
    {
      this.location := location;
    }

    method SetNotes(notes: Option<string>)
      modifies this
      ensures Fields() == old(Fields()).(notes := notes)
      ensures Valid() == old(Valid())
    {
      this.notes := notes;
    }

    method SetCreatedAt(createdAt: Option<int>)
      modifies this
      ensures Fields() == old(Fields()).(createdAt := createdAt)
      ensures Valid() == old(Valid())
    {
      this.createdAt := createdAt;
    }

    /** Recomputes totalCost when both operands are present, else leaves it. */
    method CalculateTotalCost()
      modifies this
      ensures Fields() == Recalculated(old(Fields()))
      ensures Valid()
    {
      if gallons.Some? && pricePerGallon.Some? {
        totalCost := Some(Multiply(gallons.value, pricePerGallon.value));
      }
    }
  }
}

=== FILE: records.dfy ===
/** The FUEL_UPS table as the service sees it: the stored rows, in insertion
    order, and the queries and deletions the service runs over them. */
module Records {
  import opened Base
  import Entity

  /** One stored FuelUp row. The owning user is kept by its id; the columns
      declared non-null (user, date, gallons, price) are plain values. */
  datatype FuelUpRecord = FuelUpRecord(
    id: int,
    userId: Option<string>,
    date: int,
    gallons: real,
    pricePerGallon: real,
    totalCost: Option<real>,
    engineHours: Option<real>,
    location: Option<string>,
    notes: Option<string>,
    createdAt: Option<int>)

  /** The columns a row must have before it can be stored. */
  predicate RequiredColumnsPresent(s: Entity.FuelUpFields) {
    s.user != null && s.date.Some? && s.gallons.Some? && s.pricePerGallon.Some?
  }

  /** The row stored for a FuelUp with the given field values. */
  function RowOf(id: int, s: Entity.FuelUpFields, userId: Option<string>): FuelUpRecord
    requires RequiredColumnsPresent(s)
  {
    FuelUpRecord(id, userId, s.date.value, s.gallons.value, s.pricePerGallon.value,
                 s.totalCost, s.engineHours, s.location, s.notes, s.createdAt)
  }

  /** `user.userId = :userId`; an equality with NULL on either side never holds. */
  predicate OwnedBy(r: FuelUpRecord, uid: Option<string>) {
    uid.Some? && r.userId == uid
  }

  /** The rows owned by uid, in stored order. */
  function ForUser(rows: seq<FuelUpRecord>, uid: Option<string>): (r: seq<FuelUpRecord>)
    ensures forall x :: multiset(r)[x] == if OwnedBy(x, uid) then multiset(rows)[x] else 0
    ensures forall x :: x in r ==> x in rows && OwnedBy(x, uid)
    decreases |rows|
  {
    if rows == [] then []
    else
      assert rows == [rows[0]] + rows[1..];
      if OwnedBy(rows[0], uid) then [rows[0]] + ForUser(rows[1..], uid)
      else ForUser(rows[1..], uid)
  }

  /** Storing one more row adds it to its owner's rows, at the end, and
      leaves every other user's rows as they were. */
  lemma {:induction false} ForUserAppend(rows: seq<FuelUpRecord>, x: FuelUpRecord, uid: Option<string>)
    ensures ForUser(rows + [x], uid) == ForUser(rows, uid) + if OwnedBy(x, uid) then [x] else []
    decreases |rows|
  {
    if rows == [] {
      assert [] + [x] == [x] && [x][1..] == [];
    } else {
      assert (rows + [x])[0] == rows[0] && (rows + [x])[1..] == rows[1..] + [x];
      ForUserAppend(rows[1..], x, uid);
    }
  }

  /** Most recent date first. */
  ghost predicate NewestFirst(rows: seq<FuelUpRecord>) {
    forall i, j :: 0 <= i < j < |rows| ==> rows[i].date >= rows[j].date
  }

  /** Inserts x before the first row with an earlier date. */
  function InsertByDate(x: FuelUpRecord, rows: seq<FuelUpRecord>): (r: seq<FuelUpRecord>)
    requires NewestFirst(rows)
    ensures NewestFirst(r)
    ensures multiset(r) == multiset(rows) + multiset{x}
    ensures |r| == |rows| + 1 && (r[0] == x || (rows != [] && r[0] == rows[0]))
    decreases |rows|
  {
    if rows == [] || x.date >= rows[0].date then [x] + rows
    else
      assert rows == [rows[0]] + rows[1..];
      [rows[0]] + InsertByDate(x, rows[1..])
  }

  /** `ORDER BY f.date DESC`: the same rows, most recent first. */
  function SortNewestFirst(rows: seq<FuelUpRecord>): (r: seq<FuelUpRecord>)
    ensures NewestFirst(r)
    ensures multiset(r) == multiset(rows)
    decreases |rows|
  {
    if rows == [] then []
    else
      assert rows == [rows[0]] + rows[1..];
      InsertByDate(rows[0], SortNewestFirst(rows[1..]))
  }

  /** What getFuelUpsByUser returns. */
  function ListForUser(rows: seq<FuelUpRecord>, uid: Option<string>): (r: seq<FuelUpRecord>)
    ensures NewestFirst(r)
    ensures forall x :: multiset(r)[x] == if OwnedBy(x, uid) then multiset(rows)[x] else 0
  {
    SortNewestFirst(ForUser(rows, uid))
  }

  /** A row older than every row of a sorted list goes to its end. */
  lemma {:induction false} InsertOldest(x: FuelUpRecord, rows: seq<FuelUpRecord>)
    requires NewestFirst(rows)
    requires forall r :: r in rows ==> r.date > x.date
    ensures InsertByDate(x, rows) == rows + [x]
    decreases |rows|
  {
    if rows != [] {
      assert rows[0] in rows;
      assert rows == [rows[0]] + rows[1..];
      InsertOldest(x, rows[1..]);
    }
  }

  /** The worked example: dates 1 Jan, 1 Mar, 1 Feb (day numbers) come back
      as 1 Mar, 1 Feb, 1 Jan. */
  lemma ListingExample(a: FuelUpRecord, b: FuelUpRecord, c: FuelUpRecord)
    requires a.date == 0 && b.date == 60 && c.date == 31
    requires a.userId == b.userId == c.userId == Some("u")
    ensures ListForUser([a, b, c], Some("u")) == [b, c, a]
  {
    ExampleOwned(a, b, c);
    ExampleSorted(a, b, c);
  }

  lemma ExampleOwned(a: FuelUpRecord, b: FuelUpRecord, c: FuelUpRecord)
    requires a.userId == b.userId == c.userId == Some("u")
    ensures ForUser([a, b, c], Some("u")) == [a, b, c]
  {
    var abc, bc, cc := [a, b, c], [b, c], [c];
    assert abc[0] == a && abc[1..] == bc && bc[0] == b && bc[1..] == cc && cc[0] == c && cc[1..] == [];
    assert ForUser(cc, Some("u")) == cc;
    assert ForUser(bc, Some("u")) == bc;
  }

  lemma ExampleSorted(a: FuelUpRecord, b: FuelUpRecord, c: FuelUpRecord)
    requires a.date == 0 && b.date == 60 && c.date == 31
    ensures SortNewestFirst([a, b, c]) == [b, c, a]
  {
    var abc, bc, cc := [a, b, c], [b, c], [c];
    assert abc[0] == a && abc[1..] == bc && bc[0] == b && bc[1..] == cc && cc[0] == c && cc[1..] == [];
    assert SortNewestFirst(bc) == bc by {
      assert SortNewestFirst(cc) == cc;
      assert InsertByDate(b, cc) == [b] + cc;
    }
    InsertOldest(a, bc);
    assert bc + [a] == [b, c, a];
  }

  predicate HasId(rows: seq<FuelUpRecord>, id: int) {
    exists x :: x in rows && x.id == id
  }

  /** No id is stored twice. */
  ghost predicate UniqueIds(rows: seq<FuelUpRecord>)
    decreases |rows|
  {
    rows != [] ==> !HasId(rows[1..], rows[0].id) && UniqueIds(rows[1..])
  }

  /** Appending a row whose id is not yet stored keeps the ids unique. */
  lemma {:induction false} AppendFreshId(rows: seq<FuelUpRecord>, x: FuelUpRecord)
    requires UniqueIds(rows) && !HasId(rows, x.id)
    ensures UniqueIds(rows + [x])
    decreases |rows|
  {
    if rows != [] {
      assert (rows + [x])[1..] == rows[1..] + [x];
      assert rows[0] in rows;
      AppendFreshId(rows[1..], x);
    } else {
      assert ([] + [x])[1..] == [];
    }
  }

  /** entityManager.find: the stored row with that id, if any. */
  function Find(rows: seq<FuelUpRecord>, id: int): (r: Option<FuelUpRecord>)
    ensures r.Some? <==> HasId(rows, id)
    ensures r.Some? ==> r.value in rows && r.value.id == id
    decreases |rows|
  {
    if rows == [] then None
    else if rows[0].id == id then Some(rows[0])
    else
      assert rows == [rows[0]] + rows[1..];
      Find(rows[1..], id)
  }

  /** The rows left after removing the one with that id. */
  function Without(rows: seq<FuelUpRecord>, id: int): (r: seq<FuelUpRecord>)
    ensures forall x :: multiset(r)[x] == if x.id == id then 0 else multiset(rows)[x]
    ensures forall x :: x in r ==> x in rows && x.id != id
    ensures |r| <= |rows|
    decreases |rows|
  {
    if rows == [] then []
    else
      assert rows == [rows[0]] + rows[1..];
      if rows[0].id == id then Without(rows[1..], id)
      else [rows[0]] + Without(rows[1..], id)
  }

  /** Removing an id that is not stored changes nothing. */
  lemma {:induction false} WithoutAbsent(rows: seq<FuelUpRecord>, id: int)
    requires !HasId(rows, id)
    ensures Without(rows, id) == rows
    decreases |rows|
  {
    if rows != [] {
      assert rows[0] in rows;
      assert rows == [rows[0]] + rows[1..];
      WithoutAbsent(rows[1..], id);
    }
  }

  /** Deleting twice is deleting once. */
  lemma {:induction false} WithoutIdempotent(rows: seq<FuelUpRecord>, id: int)
    ensures Without(Without(rows, id), id) == Without(rows, id)
  {
    WithoutAbsent(Without(rows, id), id);
  }

  /** With unique ids, deleting a stored id removes exactly one row and keeps
      the ids unique. */
  lemma {:induction false} WithoutUnique(rows: seq<FuelUpRecord>, id: int)
    requires UniqueIds(rows)
    ensures UniqueIds(Without(rows, id))
    ensures |Without(rows, id)| == if HasId(rows, id) then |rows| - 1 else |rows|
    decreases |rows|
  {
    if rows != [] {
      var head, tail := rows[0], rows[1..];
      assert rows == [head] + tail;
      WithoutUnique(tail, id);
      if head.id == id {
        WithoutAbsent(tail, id);
      } else {
        var w := Without(tail, id);
        assert ([head] + w)[1..] == w;
        assert HasId(rows, id) == HasId(tail, id);
      }
    }
  }

  /** The rows that do not belong to uid. */
  function WithoutOwner(rows: seq<FuelUpRecord>, uid: Option<string>): (r: seq<FuelUpRecord>)
    ensures forall x :: multiset(r)[x] == if OwnedBy(x, uid) then 0 else multiset(rows)[x]
    decreases |rows|
  {
    if rows == [] then []
    else
      assert rows == [rows[0]] + rows[1..];
      if OwnedBy(rows[0], uid) then WithoutOwner(rows[1..], uid)
      else [rows[0]] + WithoutOwner(rows[1..], uid)
  }

  /** A user's collection is ForUser (the inverse of FuelUp.user). Removing
      the user's rows leaves the user none and every other user the same list. */
  lemma {:induction false} CascadeRemovesOwned(rows: seq<FuelUpRecord>, uid: Option<string>, other: Option<string>)
    requires other != uid
    ensures ForUser(WithoutOwner(rows, uid), uid) == []
    ensures ForUser(WithoutOwner(rows, uid), other) == ForUser(rows, other)
    decreases |rows|
  {
    if rows != [] {
      CascadeRemovesOwned(rows[1..], uid, other);
      var w := WithoutOwner(rows[1..], uid);
      if !OwnedBy(rows[0], uid) {
        assert ([rows[0]] + w)[1..] == w;
      }
    }
  }
}

=== FILE: resolver.dfy ===
/** Resolving a named resource through an ordered list of candidates, and
    the naming-service lookups built on it. The naming service itself is a
    parameter: a function from a candidate to what looking it up yields. */
module Resolver {
  import opened Base

  /** What one lookup yields: a handle, a naming failure (NamingException),
      or any other failure (for instance a handle of the wrong type). */
  datatype Lookup<+H> =
    | Bound(handle: H)
    | NotBound(message: string)
    | Broken(message: string)

  /** The lookup that decided the call, and the candidates attempted, in order. */
  datatype Resolution<+N, +H> = Resolution(outcome: Lookup<H>, tried: seq<N>)

  /** Tries the candidates in order and stops at the first one that does not
      fail with a naming failure; the last candidate's outcome, whatever it
      is, is final. */
  function Resolve<N, H>(candidates: seq<N>, lookup: N -> Lookup<H>): (r: Resolution<N, H>)
    requires candidates != []
    ensures 0 < |r.tried| <= |candidates| && r.tried == candidates[..|r.tried|]
    ensures r.outcome == lookup(r.tried[|r.tried| - 1])
    ensures forall i :: 0 <= i < |r.tried| - 1 ==> lookup(r.tried[i]).NotBound?
    ensures r.outcome.NotBound? ==> r.tried == candidates
    decreases |candidates|
  {
    var first := lookup(candidates[0]);
    if first.NotBound? && |candidates| > 1 then
      var rest := Resolve(candidates[1..], lookup);
      Resolution(rest.outcome, [candidates[0]] + rest.tried)
    else
      Resolution(first, [candidates[0]])
  }

  /** When candidate k is the first that does not fail with a naming failure,
      its outcome is the result and nothing after it is attempted. */
  lemma FirstSettledWins<N, H>(candidates: seq<N>, lookup: N -> Lookup<H>, k: nat)
    requires k < |candidates|
    requires !lookup(candidates[k]).NotBound?
    requires forall i :: 0 <= i < k ==> lookup(candidates[i]).NotBound?
    ensures Resolve(candidates, lookup) == Resolution(lookup(candidates[k]), candidates[..k + 1])
  {
    var r := Resolve(candidates, lookup);
    assert |r.tried| == k + 1;
  }

  /** Resolution succeeds exactly when some candidate is bound and every
      candidate before it failed with a naming failure. */
  lemma ResolveSucceedsIff<N, H>(candidates: seq<N>, lookup: N -> Lookup<H>)
    requires candidates != []
    ensures Resolve(candidates, lookup).outcome.Bound? <==>
      exists k :: 0 <= k < |candidates| && lookup(candidates[k]).Bound? &&
        forall i :: 0 <= i < k ==> lookup(candidates[i]).NotBound?
  {
    var r := Resolve(candidates, lookup);
    if r.outcome.Bound? {
      var k := |r.tried| - 1;
      assert r.tried[k] == candidates[k];
      assert forall i :: 0 <= i < k ==> r.tried[i] == candidates[i];
    }
    if exists k :: 0 <= k < |candidates| && lookup(candidates[k]).Bound? &&
        forall i :: 0 <= i < k ==> lookup(candidates[i]).NotBound? {
      var k :| 0 <= k < |candidates| && lookup(candidates[k]).Bound? &&
        forall i :: 0 <= i < k ==> lookup(candidates[i]).NotBound?;
      FirstSettledWins(candidates, lookup, k);
    }
  }

  /** How a naming context is created: with the vendor's factory and
      provider URL, or with the default environment. */
  datatype ContextConfig = VendorContext(factory: string, providerUrl: string) | DefaultContext

  const WebSphereContext := VendorContext(
    "com.ibm.websphere.naming.WsnInitialContextFactory", "corbaloc:iiop:localhost:2809")

  /** getInitialContext: the vendor context, or the default one when creating
      the vendor context fails with a naming failure. */
  function GetInitialContext<C>(create: ContextConfig -> Lookup<C>): (r: Resolution<ContextConfig, C>)
    ensures r.tried == if create(WebSphereContext).NotBound? then [WebSphereContext, DefaultContext]
                       else [WebSphereContext]
    ensures r.outcome == if create(WebSphereContext).NotBound? then create(DefaultContext)
                         else create(WebSphereContext)
  {
    Resolve([WebSphereContext, DefaultContext], create)
  }

  const WebSphereDataSource := "jdbc/was/BoatFuelDS"
  const DataSourceJndi := "jdbc/BoatFuelTrackerDS"
  const ComponentEnv := "java:comp/env/"
  const CannotFindDataSource := "Cannot find datasource: "

  /** The two data-source names lookupDataSource tries, in order. */
  const DataSourceNames: seq<string> := [WebSphereDataSource, ComponentEnv + DataSourceJndi]

  /** lookupDataSource. Every failure (no context, or no data source) ends as a
      naming failure whose message starts with "Cannot find datasource: ". */
  function LookupDataSource<C, D>(create: ContextConfig -> Lookup<C>, lookup: (C, string) -> Lookup<D>)
    : (r: Resolution<string, D>)
    ensures r.outcome.Bound? || (r.outcome.NotBound? && CannotFindDataSource <= r.outcome.message)
    ensures r.tried <= DataSourceNames
    ensures var ctx := GetInitialContext(create).outcome;
      if !ctx.Bound? then r.tried == []
      else
        var first := lookup(ctx.handle, DataSourceNames[0]);
        var second := lookup(ctx.handle, DataSourceNames[1]);
        && r.tried == DataSourceNames[..if first.NotBound? then 2 else 1]
        && (r.outcome.Bound? <==> first.Bound? || (first.NotBound? && second.Bound?))
        && (first.Bound? ==> r.outcome == first)
        && (first.NotBound? && second.Bound? ==> r.outcome == second)
  {
    var ctx := GetInitialContext(create).outcome;
    if !ctx.Bound? then
      Resolution(NotBound(CannotFindDataSource + ctx.message), [])
    else
      var res := Resolve(DataSourceNames, n => lookup(ctx.handle, n));
      if res.outcome.Bound? then res
      else Resolution(NotBound(CannotFindDataSource + res.outcome.message), res.tried)
  }

  /** The same failure, for a lookup of another handle type. */
  function Rethrown<C, O>(failure: Lookup<C>): (r: Lookup<O>)
    requires !failure.Bound?
    ensures !r.Bound? && r.NotBound? == failure.NotBound? && r.message == failure.message
  {
    if failure.NotBound? then NotBound(failure.message) else Broken(failure.message)
  }

  /** The prefix removed, when s starts with it. */
  function Unprefixed(prefix: string, s: string): (r: Option<string>)
    ensures r.Some? <==> prefix <= s
    ensures r.Some? ==> s == prefix + r.value
  {
    if prefix <= s then Some(s[|prefix|..]) else None
  }

  /** Adding a prefix and removing it again gives back the name. */
  lemma UnprefixedInverts(prefix: string, name: string)
    ensures Unprefixed(prefix, prefix + name) == Some(name)
  {
    assert (prefix + name)[|prefix|..] == name;
  }

  const EjbPrefix := "ejb/com/boatfuel/"
  const JBossPrefix := "java:jboss/"

  /** One name looked up in a freshly created context; a failure to create
      the context propagates unchanged and nothing is looked up. */
  function LookupIn<C, O>(create: ContextConfig -> Lookup<C>, lookup: (C, string) -> Lookup<O>, name: string)
    : (r: Resolution<string, O>)
    ensures var ctx := GetInitialContext(create).outcome;
      if ctx.Bound? then r == Resolution(lookup(ctx.handle, name), [name])
      else r.tried == [] && !r.outcome.Bound? && r.outcome.NotBound? == ctx.NotBound? &&
           r.outcome.message == ctx.message
  {
    var ctx := GetInitialContext(create).outcome;
    if ctx.Bound? then Resolution(lookup(ctx.handle, name), [name])
    else Resolution(Rethrown(ctx), [])
  }

  /** lookupEJB: looks up exactly "ejb/com/boatfuel/" + ejbName. */
  function LookupEjb<C, O>(create: ContextConfig -> Lookup<C>, lookup: (C, string) -> Lookup<O>, ejbName: string)
    : (r: Resolution<string, O>)
    ensures r == LookupIn(create, lookup, EjbPrefix + ejbName)
    // a consequence of the clause above, stated for the reader
    ensures r.tried <= [EjbPrefix + ejbName]
    ensures forall name :: name in r.tried ==> Unprefixed(EjbPrefix, name) == Some(ejbName)
  {
    UnprefixedInverts(EjbPrefix, ejbName);
    LookupIn(create, lookup, EjbPrefix + ejbName)
  }

  /** lookupJBossResource: looks up exactly "java:jboss/" + resourceName. */
  function LookupJBossResource<C, O>(create: ContextConfig -> Lookup<C>, lookup: (C, string) -> Lookup<O>, resourceName: string)
    : (r: Resolution<string, O>)
    ensures r == LookupIn(create, lookup, JBossPrefix + resourceName)
    // a consequence of the clause above, stated for the reader
    ensures r.tried <= [JBossPrefix + resourceName]
    ensures forall name :: name in r.tried ==> Unprefixed(JBossPrefix, name) == Some(resourceName)
  {
    UnprefixedInverts(JBossPrefix, resourceName);
    LookupIn(create, lookup, JBossPrefix + resourceName)
  }
}

=== FILE: service.dfy ===
/** The fuel-up service bean over an abstract store: the FUEL_UPS rows in
    insertion order and the next identifier the store will generate. Whether
    the store or the connection fails on a call is a parameter (`fault`);
    every such failure surfaces as a RemoteException with the operation's
    message and is never swallowed. */
module Service {
  import opened Base
  import Entity
  import opened Records
  import opened Statistics
  import Resolver

  /** A RemoteException and its message. */
  datatype ServiceError = RemoteFailure(message: string)

  const CreateFailed := "Failed to create fuel-up"
  const RetrieveFailed := "Failed to retrieve fuel-ups"
  const DeleteFailed := "Failed to delete fuel-up"
  const StatisticsFailed := "Failed to calculate statistics"

  /** The result set of the aggregate query: an aggregate without GROUP BY
      yields exactly one row, whatever the table holds. */
  function AggregateQuery(rows: seq<FuelUpRecord>, uid: Option<string>): (rs: seq<FuelUpStatistics>)
    ensures |rs| == 1
    ensures rs[0].count == |ForUser(rows, uid)|
    ensures uid.None? ==> rs[0] == FuelUpStatistics(0, None, None, None)
  {
    [Aggregate(ForUser(rows, uid))]
  }

  /** What getStatistics returns when the result set has no row. */
  const ZeroStatistics := FuelUpStatistics(0, Some(0.0), Some(0.0), Some(0.0))

  class FuelUpService {
    var rows: seq<FuelUpRecord>
    var nextId: int

    /** Identifiers are unique and all below the next one generated. */
    ghost predicate Valid()
      reads this
    {
      UniqueIds(rows) && forall x :: x in rows ==> x.id < nextId
    }

    /** ejbCreate attaches the bean to the FUEL_UPS rows already stored and to
        the store's identifier generator. */
    constructor (rows0: seq<FuelUpRecord>, next0: int)
      requires UniqueIds(rows0) && forall x :: x in rows0 ==> x.id < next0
      ensures rows == rows0 && nextId == next0 && Valid()
    {
      rows := rows0;
      nextId := next0;
    }

    /** createFuelUp: reading the owner's id fails on a null fuel-up or a null
        user before anything is stored; persist fails on a missing non-null
        column or a store fault. On success persist gives f its generated id
        and creation time, stores its row, and f itself is returned. */
    method CreateFuelUp(f: Entity.FuelUp?, now: int, fault: bool) returns (r: Result<Entity.FuelUp, ServiceError>)
      requires Valid()
      modifies this, f
      ensures Valid()
      ensures r.Ok? <==> f != null && old(f.user) != null && RequiredColumnsPresent(old(f.Fields())) && !fault
      ensures r.Ok? ==>
        && f != null
        && r.value == f
        && f.Fields() == old(f.Fields()).(id := Some(old(nextId)), createdAt := Some(now))
        && rows == old(rows) + [RowOf(old(nextId), f.Fields(), f.user.userId)]
        && nextId == old(nextId) + 1
      ensures r.Err? ==>
        && r.error == RemoteFailure(CreateFailed)
        && rows == old(rows) && nextId == old(nextId)
        && (f != null ==> f.Fields() == old(f.Fields()))
      ensures f != null ==> f.Valid() == old(f.Valid())
    {
      if f == null || f.user == null || !RequiredColumnsPresent(f.Fields()) || fault {
        return Err(RemoteFailure(CreateFailed));
      }
      f.SetId(Some(nextId));
      f.SetCreatedAt(Some(now));
      var row := RowOf(nextId, f.Fields(), f.user.userId);
      assert !HasId(rows, row.id);
      AppendFreshId(rows, row);
      rows := rows + [row];
      nextId := nextId + 1;
      r := Ok(f);
    }

    /** getFuelUpsByUser: the user's rows, most recent first; a null user id
        matches nothing. */
    method GetFuelUpsByUser(uid: Option<string>, fault: bool) returns (r: Result<seq<FuelUpRecord>, ServiceError>)
      ensures r.Ok? <==> !fault
      ensures r.Err? ==> r.error == RemoteFailure(RetrieveFailed)
      ensures r.Ok? ==> r.value == ListForUser(rows, uid)
      ensures r.Ok? ==> NewestFirst(r.value)
      ensures r.Ok? ==> forall x :: multiset(r.value)[x] == if OwnedBy(x, uid) then multiset(rows)[x] else 0
    {
      if fault {
        return Err(RemoteFailure(RetrieveFailed));
      }
      r := Ok(ListForUser(rows, uid));
    }

    /** deleteFuelUp: find with a null id fails; a stored id is removed, an
        absent one leaves the store as it is. */
    method DeleteFuelUp(id: Option<int>, fault: bool) returns (r: Result<(), ServiceError>)
      requires Valid()
      modifies this
      ensures Valid() && nextId == old(nextId)
      ensures r.Ok? <==> id.Some? && !fault
      ensures r.Err? ==> r.error == RemoteFailure(DeleteFailed) && rows == old(rows)
      ensures r.Ok? ==> rows == Without(old(rows), id.value)
      ensures r.Ok? && !HasId(old(rows), id.value) ==> rows == old(rows)
      ensures r.Ok? ==> |rows| == if HasId(old(rows), id.value) then |old(rows)| - 1 else |old(rows)|
    {
      if id.None? || fault {
        return Err(RemoteFailure(DeleteFailed));
      }
      var found := Find(rows, id.value);
      WithoutUnique(rows, id.value);
      if found.Some? {
        rows := Without(rows, id.value);
      } else {
        WithoutAbsent(rows, id.value);
      }
      r := Ok(());
    }

    /** getStatistics: looks up the data source first; any lookup, connection
        or query failure becomes "Failed to calculate statistics". Otherwise
        the statistics of the aggregate row; the all-zero result is the
        fallback for a result set without rows. */
    method GetStatistics<C, D>(uid: Option<string>, create: Resolver.ContextConfig -> Resolver.Lookup<C>,
                               lookup: (C, string) -> Resolver.Lookup<D>, fault: bool)
      returns (r: Result<FuelUpStatistics, ServiceError>)
      ensures r.Ok? <==> Resolver.LookupDataSource(create, lookup).outcome.Bound? && !fault
      ensures r.Err? ==> r.error == RemoteFailure(StatisticsFailed)
      ensures r.Ok? ==> r.value == Aggregate(ForUser(rows, uid))
      ensures r.Ok? ==> r.value.count == |ListForUser(rows, uid)|
    {
      var ds := Resolver.LookupDataSource(create, lookup);
      if !ds.outcome.Bound? || fault {
        return Err(RemoteFailure(StatisticsFailed));
      }
      var resultSet := AggregateQuery(rows, uid);
      if |resultSet| > 0 {
        r := Ok(resultSet[0]);
      } else {
        r := Ok(ZeroStatistics);
      }
      ListedRowsAggregateAlike(rows, uid);
    }
  }
}

=== FILE: session.dfy ===
/** The per-conversation session: which user is signed in and when the
    session was last touched. The clock is a parameter (`now`, milliseconds). */
module Session {
  import Entity

  datatype SessionState = SessionState(
    sessionId: string,
    currentUser: Entity.User?,
    lastAccessTime: int)

  /** One call on the session, with the clock reading it takes where it takes one. */
  datatype Call =
    | SetUser(user: Entity.User?, now: int)
    | GetUser(now: int)
    | CheckLoggedIn
    | Logout
    | ReadLastAccess
    | TxBegin
    | TxBeforeCompletion
    | TxAfterCompletion(committed: bool)

  predicate LoggedIn(s: SessionState) {
    s.currentUser != null
  }

  /** The state after one call. Setting a null user throws before any field
      is assigned, so it leaves the state as it was. */
  function Step(s: SessionState, call: Call): SessionState {
    match call
    case SetUser(user, now) =>
      if user == null then s else s.(currentUser := user, lastAccessTime := now)
    case GetUser(now) => s.(lastAccessTime := now)
    case Logout => s.(currentUser := null)
    case CheckLoggedIn => s
    case ReadLastAccess => s
    case TxBegin => s
    case TxBeforeCompletion => s
    case TxAfterCompletion(_) => s
  }

  /** The state after a sequence of calls. */
  function Run(s: SessionState, calls: seq<Call>): SessionState
    decreases |calls|
  {
    if calls == [] then s else Run(Step(s, calls[0]), calls[1..])
  }

  /** The clock readings the calls carry, in order. */
  function Readings(calls: seq<Call>): seq<int>
    decreases |calls|
  {
    if calls == [] then []
    else
      match calls[0]
      case SetUser(_, now) => [now] + Readings(calls[1..])
      case GetUser(now) => [now] + Readings(calls[1..])
      case _ => Readings(calls[1..])
  }

  ghost predicate NonDecreasing(xs: seq<int>) {
    forall i, j :: 0 <= i <= j < |xs| ==> xs[i] <= xs[j]
  }

  /** Signing in makes the session logged in with the given user; signing out
      makes it anonymous and keeps the access time; neither touches the id. */
  lemma SignInThenOut(s: SessionState, user: Entity.User, now: int)
    ensures var t := Step(s, SetUser(user, now));
      LoggedIn(t) && t.currentUser == user && t.lastAccessTime == now && t.sessionId == s.sessionId
    ensures var u := Step(Step(s, SetUser(user, now)), Logout);
      !LoggedIn(u) && u.lastAccessTime == now && u.sessionId == s.sessionId
  {
  }

  /** Reading the user, asking whether someone is logged in, reading the
      access time and the three transaction notifications change nothing;
      a null user is refused without a change. */
  lemma QueriesAndHooksChangeNothing(s: SessionState, committed: bool, now: int)
    ensures Step(s, CheckLoggedIn) == s && Step(s, ReadLastAccess) == s
    ensures Step(s, TxBegin) == s && Step(s, TxBeforeCompletion) == s
    ensures Step(s, TxAfterCompletion(committed)) == s
    ensures Step(s, SetUser(null, now)) == s
    ensures Step(s, GetUser(now)).currentUser == s.currentUser
  {
  }

  /** With a clock that never runs backwards (and starts no earlier than the
      last access), no sequence of calls moves lastAccessTime backwards, and
      it never passes the latest reading. */
  lemma {:induction false} AccessTimeNeverDecreases(s: SessionState, calls: seq<Call>)
    requires NonDecreasing([s.lastAccessTime] + Readings(calls))
    ensures var xs := [s.lastAccessTime] + Readings(calls);
      xs[0] <= Run(s, calls).lastAccessTime <= xs[|xs| - 1]
    decreases |calls|
  {
    if calls != [] {
      var t := Step(s, calls[0]);
      var rest := Readings(calls[1..]);
      var xs := [s.lastAccessTime] + Readings(calls);
      match calls[0]
      case SetUser(_, now) =>
        assert xs == [s.lastAccessTime, now] + rest;
        assert NonDecreasing([t.lastAccessTime] + rest) by {
          forall i, j | 0 <= i <= j < |rest| + 1
            ensures ([t.lastAccessTime] + rest)[i] <= ([t.lastAccessTime] + rest)[j]
          {
            if i > 0 { assert rest[i - 1] == xs[i + 1] && rest[j - 1] == xs[j + 1]; }
            else if j > 0 { assert rest[j - 1] == xs[j + 1] && xs[1] <= xs[j + 1]; }
          }
        }
        AccessTimeNeverDecreases(t, calls[1..]);
      case GetUser(now) =>
        assert xs == [s.lastAccessTime, now] + rest;
        assert NonDecreasing([t.lastAccessTime] + rest) by {
          forall i, j | 0 <= i <= j < |rest| + 1
            ensures ([t.lastAccessTime] + rest)[i] <= ([t.lastAccessTime] + rest)[j]
          {
            if i > 0 { assert rest[i - 1] == xs[i + 1] && rest[j - 1] == xs[j + 1]; }
            else if j > 0 { assert rest[j - 1] == xs[j + 1] && xs[1] <= xs[j + 1]; }
          }
        }
        AccessTimeNeverDecreases(t, calls[1..]);
      case _ =>
        assert !calls[0].SetUser? && !calls[0].GetUser?;
        assert t.lastAccessTime == s.lastAccessTime && Readings(calls) == rest;
        AccessTimeNeverDecreases(t, calls[1..]);
    }
  }

  /** The session object; the constructor is ejbCreate. */
  class UserSession {
    var sessionId: string
    var currentUser: Entity.User?
    var lastAccessTime: int

    function State(): SessionState
      reads this
    {
      SessionState(sessionId, currentUser, lastAccessTime)
    }

    constructor (sessionId: string, now: int)
      ensures State() == SessionState(sessionId, null, now) && !LoggedIn(State())
    {
      this.sessionId := sessionId;
      this.currentUser := null;
      this.lastAccessTime := now;
    }

    /** Fails (ok is false) on a null user, changing nothing. */
    method SetCurrentUser(user: Entity.User?, now: int) returns (ok: bool)
      modifies this
      ensures ok <==> user != null
      ensures State() == Step(old(State()), SetUser(user, now))
      ensures ok ==> currentUser == user && lastAccessTime == now && LoggedIn(State())
    {
      if user == null {
        return false;
      }
      currentUser := user;
      lastAccessTime := now;
      ok := true;
    }

    method GetCurrentUser(now: int) returns (user: Entity.User?)
      modifies this
      ensures user == old(currentUser)
      ensures State() == Step(old(State()), GetUser(now))
    {
      lastAccessTime := now;
      user := currentUser;
    }

    method IsLoggedIn() returns (b: bool)
      ensures b <==> LoggedIn(State())
      ensures State() == Step(old(State()), CheckLoggedIn)
    {
      b := currentUser != null;
    }

    method Logout()
      modifies this
      ensures State() == Step(old(State()), Call.Logout) && !LoggedIn(State())
    {
      currentUser := null;
    }

    method GetLastAccessTime() returns (t: int)
      ensures t == State().lastAccessTime
      ensures State() == Step(old(State()), ReadLastAccess)
    {
      t := lastAccessTime;
    }

    /** The three transaction notifications only log. */
    method AfterBegin()
      ensures State() == Step(old(State()), TxBegin)
    {
    }

    method BeforeCompletion()
      ensures State() == Step(old(State()), TxBeforeCompletion)
    {
    }

    method AfterCompletion(committed: bool)
      ensures State() == Step(old(State()), TxAfterCompletion(committed))
    {
    }
  }
}

=== FILE: statistics.dfy ===
/** The aggregate row `SELECT COUNT(*), SUM(GALLONS), SUM(TOTAL_COST),
    AVG(PRICE_PER_GALLON)` computes over a user's rows, with SQL's treatment of
    NULL: SUM and AVG skip NULL values and are NULL over no values. */
module Statistics {
  import opened Base
  import opened Records

  datatype FuelUpStatistics = FuelUpStatistics(
    count: nat,
    totalGallons: Option<real>,
    totalSpent: Option<real>,
    avgPricePerGallon: Option<real>)

  /** The sum of f over the rows. */
  function SumOf(rows: seq<FuelUpRecord>, f: FuelUpRecord -> real): real
    decreases |rows|
  {
    if rows == [] then 0.0 else f(rows[0]) + SumOf(rows[1..], f)
  }

  function Gallons(r: FuelUpRecord): real { r.gallons }

  function Price(r: FuelUpRecord): real { r.pricePerGallon }

  /** A row's totalCost, with NULL contributing nothing. */
  function CostOrNothing(r: FuelUpRecord): real {
    if r.totalCost.Some? then r.totalCost.value else 0.0
  }

  predicate SomeCostPresent(rows: seq<FuelUpRecord>) {
    exists r :: r in rows && r.totalCost.Some?
  }

  /** The one aggregate row the query yields. */
  function Aggregate(rows: seq<FuelUpRecord>): (st: FuelUpStatistics)
    ensures st.count == |rows|
    ensures st.totalGallons.None? <==> rows == []
    ensures st.avgPricePerGallon.None? <==> rows == []
    ensures st.totalSpent.None? <==> !SomeCostPresent(rows)
    ensures rows != [] ==> st.totalGallons == Some(SumOf(rows, Gallons))
    ensures SomeCostPresent(rows) ==> st.totalSpent == Some(SumOf(rows, CostOrNothing))
    ensures rows != [] ==> st.avgPricePerGallon.value * (|rows| as real) == SumOf(rows, Price)
  {
    FuelUpStatistics(
      |rows|,
      if rows == [] then None else Some(SumOf(rows, Gallons)),
      if SomeCostPresent(rows) then Some(SumOf(rows, CostOrNothing)) else None,
      if rows == [] then None else Some(SumOf(rows, Price) / (|rows| as real)))
  }

  /** Taking out the row at i takes f of it out of the sum. */
  lemma {:induction false} SumOfRemove(rows: seq<FuelUpRecord>, i: nat, f: FuelUpRecord -> real)
    requires i < |rows|
    ensures SumOf(rows, f) == f(rows[i]) + SumOf(rows[..i] + rows[i + 1..], f)
    decreases i
  {
    if i > 0 {
      var tail := rows[1..];
      var rest := tail[..i - 1] + tail[i..];
      SumOfRemove(tail, i - 1, f);
      assert tail[i - 1] == rows[i];
      assert rows[..i] + rows[i + 1..] == [rows[0]] + rest;
      assert ([rows[0]] + rest)[0] == rows[0] && ([rows[0]] + rest)[1..] == rest;
      assert SumOf([rows[0]] + rest, f) == f(rows[0]) + SumOf(rest, f);
    } else {
      assert rows[..0] + rows[1..] == rows[1..];
    }
  }

  /** A sum does not depend on the order of the rows. */
  lemma {:induction false} SumOfPermutation(a: seq<FuelUpRecord>, b: seq<FuelUpRecord>, f: FuelUpRecord -> real)
    requires multiset(a) == multiset(b)
    ensures SumOf(a, f) == SumOf(b, f)
    decreases |a|
  {
    if a == [] {
      assert |b| == |multiset(b)| == 0;
    } else {
      assert a[0] in multiset(b);
      var i :| 0 <= i < |b| && b[i] == a[0];
      SumOfRemove(b, i, f);
      var b' := b[..i] + b[i + 1..];
      assert b == b[..i] + [b[i]] + b[i + 1..];
      assert multiset(b) == multiset(b[..i]) + multiset{b[i]} + multiset(b[i + 1..]);
      assert multiset(b') == multiset(b[..i]) + multiset(b[i + 1..]);
      assert a == [a[0]] + a[1..];
      assert multiset(a) == multiset{a[0]} + multiset(a[1..]);
      assert multiset(a[1..]) == multiset(a) - multiset{a[0]};
      assert multiset(b') == multiset(b) - multiset{b[i]};
      SumOfPermutation(a[1..], b', f);
    }
  }

  /** The statistics depend only on which rows there are, not their order. */
  lemma AggregatePermutation(a: seq<FuelUpRecord>, b: seq<FuelUpRecord>)
    requires multiset(a) == multiset(b)
    ensures Aggregate(a) == Aggregate(b)
  {
    SumOfPermutation(a, b, Gallons);
    SumOfPermutation(a, b, CostOrNothing);
    SumOfPermutation(a, b, Price);
    assert |a| == |multiset(a)| == |multiset(b)| == |b|;
    assert forall r :: r in a <==> r in b by {
      forall r ensures r in a <==> r in b {
        assert r in a <==> r in multiset(a);
        assert r in b <==> r in multiset(b);
      }
    }
  }

  /** Aggregating the list getFuelUpsByUser returns gives the same result as
      the aggregate query over the same user's rows. */
  lemma ListedRowsAggregateAlike(rows: seq<FuelUpRecord>, uid: Option<string>)
    ensures Aggregate(ListForUser(rows, uid)) == Aggregate(ForUser(rows, uid))
  {
    AggregatePermutation(ListForUser(rows, uid), ForUser(rows, uid));
  }

  /** Over no rows the count is 0 and the sums and the average are NULL. */
  lemma NoRowsGiveNulls()
    ensures Aggregate([]) == FuelUpStatistics(0, None, None, None)
  {
  }

  /** The worked example: 10 gallons at 3.00 and 5 gallons at 4.00 give
      count 2, 15 gallons, 50.00 spent and an average price of 3.50, the
      unweighted mean, not the 50 / 15 a cost-weighted average would give. */
  lemma TwoRowExample(x: FuelUpRecord, y: FuelUpRecord)
    requires x.gallons == 10.0 && x.pricePerGallon == 3.0 && x.totalCost == Some(30.0)
    requires y.gallons == 5.0 && y.pricePerGallon == 4.0 && y.totalCost == Some(20.0)
    ensures Aggregate([x, y]) == FuelUpStatistics(2, Some(15.0), Some(50.0), Some(3.5))
    ensures 3.5 != 50.0 / 15.0
  {
    var xy := [x, y];
    assert xy[0] == x && xy[1..] == [y] && [y][0] == y && [y][1..] == [];
    assert x in xy;
    assert SumOf(xy, Gallons) == Gallons(x) + SumOf([y], Gallons) == 10.0 + 5.0;
    assert SumOf(xy, CostOrNothing) == CostOrNothing(x) + SumOf([y], CostOrNothing) == 30.0 + 20.0;
    assert SumOf(xy, Price) == Price(x) + SumOf([y], Price) == 3.0 + 4.0;
  }
}

=== FILE: users.dfy ===
/** The USERS table keyed by userId, with the constraints the User entity
    declares: a generated id, a required and unique email, a creation
    timestamp, and deletion cascading to the user's fuel-ups. */
module Users {
  import opened Base
  import Entity
  import opened Records

  /** The USERS table keyed by userId: email is present and no two users share it. */
  ghost predicate UsersWellFormed(users: map<string, Entity.UserFields>) {
    && (forall k :: k in users ==> users[k].userId == Some(k) && users[k].email.Some?)
    && (forall k, l :: k in users && l in users && users[k].email == users[l].email ==> k == l)
  }

  /** The key a new user is stored under: its own id, or the identifier the
      uuid2 generator supplies when the id is null. */
  function KeyOf(u: Entity.UserFields, generated: string): string {
    if u.userId.Some? then u.userId.value else generated
  }

  /** The row stored for u under key, stamped with its creation time. */
  function Stored(u: Entity.UserFields, key: string, now: int): Entity.UserFields {
    u.(userId := Some(key), createdAt := Some(now))
  }

  /** Inserting a user: a null id is generated (`generated`, an identifier
      not yet in use) and createdAt is the insertion time `now`; the insert is
      refused (None) when the key is taken, or the email is missing or
      already used. */
  function InsertUser(users: map<string, Entity.UserFields>, u: Entity.UserFields, generated: string, now: int)
    : (r: Option<map<string, Entity.UserFields>>)
    requires UsersWellFormed(users) && generated !in users
    ensures r.Some? <==> (KeyOf(u, generated) !in users && u.email.Some? &&
                          forall k :: k in users ==> users[k].email != u.email)
    ensures r.Some? ==> UsersWellFormed(r.value)
    ensures r.Some? ==> r.value == users[KeyOf(u, generated) := Stored(u, KeyOf(u, generated), now)]
    // a consequence of the clause above, stated for the reader
    ensures r.Some? ==> r.value[KeyOf(u, generated)].createdAt == Some(now)
    ensures u.userId.None? && u.email.Some? && (forall k :: k in users ==> users[k].email != u.email) ==>
      r == Some(users[generated := Stored(u, generated, now)])
  {
    var key := KeyOf(u, generated);
    if key !in users && u.email.Some? &&
       forall k :: k in users ==> users[k].email != u.email
    then Some(users[key := Stored(u, key, now)])
    else None
  }

  /** Deleting a user cascades to the fuel-ups it owns. */
  function DeleteUser(users: map<string, Entity.UserFields>, rows: seq<FuelUpRecord>, uid: string)
    : (r: (map<string, Entity.UserFields>, seq<FuelUpRecord>))
    requires UsersWellFormed(users)
    ensures UsersWellFormed(r.0) && r.0.Keys == users.Keys - {uid}
    ensures forall k :: k in r.0 ==> r.0[k] == users[k]
    ensures forall x :: multiset(r.1)[x] == if OwnedBy(x, Some(uid)) then 0 else multiset(rows)[x]
    ensures ForUser(r.1, Some(uid)) == []
    ensures forall other :: other != Some(uid) ==> ForUser(r.1, other) == ForUser(rows, other)
  {
    forall other | other != Some(uid)
      ensures ForUser(WithoutOwner(rows, Some(uid)), other) == ForUser(rows, other)
    {
      CascadeRemovesOwned(rows, Some(uid), other);
    }
    CascadeRemovesOwned(rows, Some(uid), None);
    (users - {uid}, WithoutOwner(rows, Some(uid)))
  }
}
